=== FILE: README.md ===
# Pooled async connections and revalidation scheduling, modelled in Dafny

This project models three pieces of sequential logic in the non-blocking
HTTP client:

- **The managed connection handle** (`ManagedClientAsyncConnectionImpl`
  and its `HttpPoolEntry`). The handle owns an optional pool entry, a reuse
  flag and an idle duration. It checks each route-establishment step against
  the entry's route tracker before recording it: open, then tunnel, then
  layer. Once release or abort has detached it, it reports "connection shut
  down".
- **The connection manager's release cascade and lease callback**
  (`PoolingClientAsyncConnectionManager`). Release runs argument checks,
  exits early when the pool is shut down or the handle is already detached,
  shuts down open non-reusable connections, updates the expiry of entries
  that are still open, and then detaches the handle and calls
  `pool.release(entry, reusable)` exactly once. When a lease completes after
  the caller's future is already done, the entry goes straight back to the
  pool.
- **Revalidation de-duplication** (`AsynchronousAsyncValidator`). This is a
  set of cache keys with a job in flight. A key is recorded only when the
  executor accepts its job, and it is removed again when the job completes.

The model is functional. Handles, entries, trackers, the manager and the
validator are immutable records. Each `synchronized` method is one
transition function. An operation that throws before changing anything
returns `Err`. When a release or abort throws after it has already changed
state (after a `finally` block has run, or after abort has cleared the reuse
flag), or when the handle has no manager to call, the transition returns the
state it leaves together with that exception (`Released.raised`). The pool is a log of its `release` calls
plus a shut-down flag. These are parameters ("oracles") of the model:

- the executor's accept/reject answer;
- the scheme that the registry resolves;
- how the transport behaves on shutdown (succeeds, throws an I/O error, or
  throws an unchecked exception);
- the clock (`now`).

The transport's graceful `close` is not told apart from its `shutdown`:
both follow the same shutdown behaviour.

Modules: `Common` (results, errors, `long` range, `TimeUnit.toMillis`),
`Routes` (route and tracker records), `PoolEntries`, `ManagedConnections`,
`ConnectionManager`, `AsyncValidator`, and `Lifecycle` (properties over
arbitrary sequences of calls on one handle).

Four behaviours of the code worth knowing:

- `layerProtocol` requires a tunnel on every route, not only on proxied
  routes.
- The validator adds a key only after the executor has accepted the job.
  It never adds a key and then removes it.
- Aborting a handle before `open` throws instead of releasing the entry.
  See Findings. The call sequences in `Lifecycle` use the abort as written,
  so their properties also cover a handle that survives such an abort.
- A handle released without `setIdleDuration` passes its initial idle
  duration, `Long.MAX_VALUE`, as the keep-alive. The base class adds it to
  the current time in `long` arithmetic, the sum wraps negative, and the
  entry reaches the pool already expired (`Lifecycle.DefaultDurationExpiresOnRelease`).

## Model

| member | source | states |
|---|---|---|
| Common.ToMillis | httpasyncclient/src/main/java-deprecated/org/apache/http/impl/nio/conn/ManagedClientAsyncConnectionImpl.java:314 | A positive duration converted to milliseconds stays within `0..Long.MAX_VALUE`: unchanged for milliseconds, never larger for finer units, never smaller for coarser units (saturating instead of overflowing) |
| PoolEntries.NewEntry | httpasyncclient/src/main/java-deprecated/org/apache/http/impl/nio/conn/HttpPoolEntry.java:47-51 | A new entry's tracker is a fresh tracker for exactly the construction route; planned route is that route and effective route is absent. Its expiry is its time-to-live deadline, so it is live at every time before that deadline and expired from it on; without a positive time-to-live the deadline is `Long.MAX_VALUE`. The deadline sum is `long` arithmetic: when `now + ttl` overflows it wraps and the entry is expired at every non-negative time |
| PoolEntries.EffectiveRoute | httpasyncclient/src/main/java-deprecated/org/apache/http/impl/nio/conn/HttpPoolEntry.java:93-95 | The effective route exists exactly when the tracker is connected and carries the tracker's target and proxy chain |
| PoolEntries.IsClosed | httpasyncclient/src/main/java-deprecated/org/apache/http/impl/nio/conn/HttpPoolEntry.java:79-83 | The session's closed state; `ManagedConnections.ShutdownClosesEntry` connects it to the handle's open state and to shutdown |
| PoolEntries.IsExpired | httpasyncclient/src/main/java-deprecated/org/apache/http/impl/nio/conn/HttpPoolEntry.java:54-61 | The base class's check `now >= expiry`, the logging adding nothing; its behaviour over time is stated by `NewEntry`, `UpdateExpiry` and `Lifecycle.RunWithoutHandOffKeepsExpiry` |
| PoolEntries.PlannedRoute | httpasyncclient/src/main/java-deprecated/org/apache/http/impl/nio/conn/HttpPoolEntry.java:85-87 | The route the entry was created for; `NewEntry` fixes it to the construction route and no call on the handle changes it (`Lifecycle.ApplyKeepsPlannedRoute`, `Lifecycle.RunKeepsPlannedRoute`) |
| Lifecycle.RunWithoutHandOffKeepsExpiry | httpasyncclient/src/main/java-deprecated/org/apache/http/impl/nio/conn/HttpPoolEntry.java:54-61 | Across any calls other than release and abort, the handle stays attached, the pool is untouched, and the entry's expiry and deadline do not move, so `isExpired` answers the same at every time; a closed entry stays closed |
| PoolEntries.Close | httpasyncclient/src/main/java-deprecated/org/apache/http/impl/nio/conn/HttpPoolEntry.java:68-77 | Closing never propagates an I/O error: a failed shutdown leaves the entry as it was, a successful one closes it; only a missing connection or an unchecked exception escapes |
| ManagedConnections.ShutdownClosesEntry | httpasyncclient/src/main/java-deprecated/org/apache/http/impl/nio/conn/HttpPoolEntry.java:79-83 | The handle is open exactly when `ensureConnection` succeeds on a session that is not closed, and then its entry is not closed. Shutting down a bound connection succeeds exactly when the transport shuts down, and then the entry reports itself closed |
| PoolEntries.UpdateExpiry | httpasyncclient/src/main/java-deprecated/org/apache/http/impl/nio/conn/PoolingClientAsyncConnectionManager.java:213-214 | After the update only the expiry has changed. The entry is always expired at its time-to-live deadline. With a positive keep-alive whose sum with `now` fits in a `long`, it stays live until `now + keepalive` and is expired from then on; when that sum overflows it wraps and the entry is expired at every non-negative time. A non-positive keep-alive leaves only the deadline |
| Lifecycle.ApplyKeepsPlannedRoute | httpasyncclient/src/main/java-deprecated/org/apache/http/impl/nio/conn/HttpPoolEntry.java:85-87 | No single call gives a handle that stays attached a different entry or planned route |
| Lifecycle.RunKeepsPlannedRoute | httpasyncclient/src/main/java-deprecated/org/apache/http/impl/nio/conn/HttpPoolEntry.java:85-87 | Whatever calls a caller makes, an attached handle keeps the same entry with the same planned route |
| ManagedConnections.NewHandle | httpasyncclient/src/main/java-deprecated/org/apache/http/impl/nio/conn/ManagedClientAsyncConnectionImpl.java:66-76 | A new handle is attached to its entry, marked reusable, with idle duration `Long.MAX_VALUE` |
| ManagedConnections.Detach | httpasyncclient/src/main/java-deprecated/org/apache/http/impl/nio/conn/ManagedClientAsyncConnectionImpl.java:82-86 | Detaching returns the entry the handle held and leaves it holding none, flags unchanged |
| ManagedConnections.EnsurePoolEntry | httpasyncclient/src/main/java-deprecated/org/apache/http/impl/nio/conn/ManagedClientAsyncConnectionImpl.java:110-116 | Fails with "connection shut down" exactly when detached, else yields the held entry |
| ManagedConnections.EnsureConnection | httpasyncclient/src/main/java-deprecated/org/apache/http/impl/nio/conn/ManagedClientAsyncConnectionImpl.java:101-108 | Fails with "connection shut down" when detached, with a null dereference when no connection is bound, else yields the session |
| ManagedConnections.IsOpen | httpasyncclient/src/main/java-deprecated/org/apache/http/impl/nio/conn/ManagedClientAsyncConnectionImpl.java:134-141 | False once detached and before `open` binds a connection, else the session's open state; `ManagedConnections.ShutdownClosesEntry` states it as: open exactly when `ensureConnection` would yield a connection whose session is not closed |
| ManagedConnections.Shutdown | httpasyncclient/src/main/java-deprecated/org/apache/http/impl/nio/conn/ManagedClientAsyncConnectionImpl.java:126-132 | Returns the handle unchanged once detached or before a connection is bound. On success the handle is no longer open, and its manager, flags and tracker are unchanged. An error only comes from a bound connection |
| ManagedConnections.Close | httpasyncclient/src/main/java-deprecated/org/apache/http/impl/nio/conn/ManagedClientAsyncConnectionImpl.java:118-124 | Returns the handle unchanged once detached or before a connection is bound; on success the handle is no longer open and keeps its manager and reuse flag |
| ManagedConnections.SetSocketTimeout | httpasyncclient/src/main/java-deprecated/org/apache/http/impl/nio/conn/ManagedClientAsyncConnectionImpl.java:148-152 | Fails exactly as `ensureConnection` fails; otherwise the session's timeout is the given one and open state, flags and tracker are unchanged |
| ManagedConnections.GetSocketTimeout | httpasyncclient/src/main/java-deprecated/org/apache/http/impl/nio/conn/ManagedClientAsyncConnectionImpl.java:154-158 | Fails exactly when no connection is reachable; else reports the session's timeout |
| ManagedConnections.IsSecure | httpasyncclient/src/main/java-deprecated/org/apache/http/impl/nio/conn/ManagedClientAsyncConnectionImpl.java:262-266 | Fails exactly when no connection is reachable; else true exactly for an SSL session |
| ManagedConnections.GetRoute | httpasyncclient/src/main/java-deprecated/org/apache/http/impl/nio/conn/ManagedClientAsyncConnectionImpl.java:268-272 | Fails with "connection shut down" exactly when detached; else the effective (not planned) route, present exactly once connected |
| ManagedConnections.GetState | httpasyncclient/src/main/java-deprecated/org/apache/http/impl/nio/conn/ManagedClientAsyncConnectionImpl.java:284-288 | Fails with "connection shut down" exactly when detached; else the entry's token |
| ManagedConnections.SetState | httpasyncclient/src/main/java-deprecated/org/apache/http/impl/nio/conn/ManagedClientAsyncConnectionImpl.java:290-294 | Fails with "connection shut down" exactly when detached; else `GetState` then returns the token just set, and nothing else changes |
| ManagedConnections.MarkReusable | httpasyncclient/src/main/java-deprecated/org/apache/http/impl/nio/conn/ManagedClientAsyncConnectionImpl.java:296-299 | `isMarkedReusable` then reports true and no other field changes |
| ManagedConnections.UnmarkReusable | httpasyncclient/src/main/java-deprecated/org/apache/http/impl/nio/conn/ManagedClientAsyncConnectionImpl.java:301-304 | `isMarkedReusable` then reports false and no other field changes |
| ManagedConnections.IsMarkedReusable | httpasyncclient/src/main/java-deprecated/org/apache/http/impl/nio/conn/ManagedClientAsyncConnectionImpl.java:306-309 | The reuse flag, as last set by mark or unmark and as handed to the pool on release (`Lifecycle.ReleaseReportsReuseFlag`) |
| ManagedConnections.SetIdleDuration | httpasyncclient/src/main/java-deprecated/org/apache/http/impl/nio/conn/ManagedClientAsyncConnectionImpl.java:311-318 | Only the duration changes: -1 for a non-positive duration, otherwise a millisecond value in `long` range equal to the input for milliseconds and 1000 times it for seconds |
| ManagedConnections.Open | httpasyncclient/src/main/java-deprecated/org/apache/http/impl/nio/conn/ManagedClientAsyncConnectionImpl.java:329-363 | Fails when detached or already connected, and succeeds otherwise. A direct route records a target connection, secure exactly when the (possibly layered) session is SSL. A proxied route records an insecure connection to the first proxy. A connection is bound, and apart from that and the SSL flag the session is unchanged, so the handle is open exactly when the session was not closed. Tunnel/layer flags, handle flags, id, route and token are unchanged |
| ManagedConnections.TunnelProxy | httpasyncclient/src/main/java-deprecated/org/apache/http/impl/nio/conn/ManagedClientAsyncConnectionImpl.java:365-374 | Fails when detached or not connected, otherwise appends the hop to the proxy chain, insecure, changing nothing else |
| ManagedConnections.TunnelTarget | httpasyncclient/src/main/java-deprecated/org/apache/http/impl/nio/conn/ManagedClientAsyncConnectionImpl.java:376-388 | Succeeds exactly when attached, connected and not yet tunnelled. The "not open" and "already tunnelled" errors leave the tracker untouched. On success the tracker is tunnelled and insecure, and nothing else changes |
| ManagedConnections.LayerProtocol | httpasyncclient/src/main/java-deprecated/org/apache/http/impl/nio/conn/ManagedClientAsyncConnectionImpl.java:390-416 | Errors are checked in source order: not open, no tunnel, already layered, no layering strategy. It succeeds exactly when all checks pass and the strategy yields an SSL session on a bound connection. The tracker then becomes layered with the strategy's secure flag |
| Lifecycle.DirectRouteCannotLayer | httpasyncclient/src/main/java-deprecated/org/apache/http/impl/nio/conn/ManagedClientAsyncConnectionImpl.java:398-400 | Immediately after a direct open, layering is refused for lack of a tunnel, whatever the scheme |
| Lifecycle.ProxiedTunnelThenLayer | httpasyncclient/src/main/java-deprecated/org/apache/http/impl/nio/conn/ManagedClientAsyncConnectionImpl.java:376-416 | Open to a proxy, then tunnel, then layer succeeds. A second layer or tunnel is then refused. The effective route is tunnelled and layered through that proxy |
| Lifecycle.ApplyKeepsOrdered | httpasyncclient/src/main/java-deprecated/org/apache/http/impl/nio/conn/ManagedClientAsyncConnectionImpl.java:329-416 | No single call, abort as written included, breaks the order connected, then tunnelled, then layered |
| Lifecycle.RunKeepsOrdered | httpasyncclient/src/main/java-deprecated/org/apache/http/impl/nio/conn/ManagedClientAsyncConnectionImpl.java:329-416 | Over any sequence of calls, including further use of a handle whose abort threw, nothing is tunnelled or layered on an unopened connection, and layering never happens without a tunnel |
| Lifecycle.FreshHandleOrdered | httpasyncclient/src/main/java-deprecated/org/apache/http/impl/nio/conn/PoolingClientAsyncConnectionManager.java:303-306 | A handle on a newly created entry starts in the ordered initial state with no effective route |
| Lifecycle.DetachedHandleIsInert | httpasyncclient/src/main/java-deprecated/org/apache/http/impl/nio/conn/ManagedClientAsyncConnectionImpl.java:92-141 | On a detached handle the route, state, socket-timeout (any value), security and connection operations fail with "connection shut down". `isOpen` is false. Close and shutdown do nothing |
| Lifecycle.DetachedStaysDetached | httpasyncclient/src/main/java-deprecated/org/apache/http/impl/nio/conn/ManagedClientAsyncConnectionImpl.java:418-442 | Once detached, no sequence of calls re-attaches the handle or touches the pool (release and abort are no-ops) |
| ConnectionManager.ReleaseHandle | httpasyncclient/src/main/java-deprecated/org/apache/http/impl/nio/conn/ManagedClientAsyncConnectionImpl.java:418-425 | A no-op when detached. A handle without a manager fails on the null dereference and stays attached. Otherwise the handle ends detached. If the pool is live it receives exactly one release of this entry with the handle's reuse flag; if the pool is shut down it receives nothing. No I/O error escapes |
| ConnectionManager.AbortHandle | httpasyncclient/src/main/java-deprecated/org/apache/http/impl/nio/conn/ManagedClientAsyncConnectionImpl.java:427-442 | A no-op when detached. Otherwise it marks the handle non-reusable and swallows shutdown I/O errors. Unless the transport's shutdown throws an unchecked exception (which propagates, leaving the handle attached), a handle with a manager is detached and a live pool receives exactly one non-reusable release of the entry |
| ConnectionManager.AbortHandleAsWritten | httpasyncclient/src/main/java-deprecated/org/apache/http/impl/nio/conn/ManagedClientAsyncConnectionImpl.java:427-442 | As written, with no connection bound, abort throws a null dereference after clearing the reuse flag. With a connection bound it behaves as `AbortHandle` |
| ConnectionManager.AbortBeforeOpen | httpasyncclient/src/main/java-deprecated/org/apache/http/impl/nio/conn/ManagedClientAsyncConnectionImpl.java:433-437 | Aborting before `open`: as written the abort leaves the entry attached and does not hand it to the pool (only a later release does, non-reusable); the corrected abort hands it back non-reusable |
| ConnectionManager.PrepareForPool | httpasyncclient/src/main/java-deprecated/org/apache/http/impl/nio/conn/PoolingClientAsyncConnectionManager.java:203-226 | An open non-reusable connection is shut down, and an I/O error from that is swallowed. Expiry and socket timeout 0 are set only if the connection is still open. Only an unchecked shutdown error escapes. Id, tracker, route and token are kept |
| ConnectionManager.ReleaseConnection | httpasyncclient/src/main/java-deprecated/org/apache/http/impl/nio/conn/PoolingClientAsyncConnectionManager.java:178-234 | Null, foreign or other-manager handles get an illegal-argument error. A shut-down pool or a detached handle changes nothing. Otherwise the handle is detached and the pool gets exactly one release with the handle's reuse flag, even when shutdown threw. The pool gets the same entry: id, route, tracker, token and time-to-live deadline are kept, and it is only closed or has its expiry and socket timeout updated as the connection's state dictates |
| ConnectionManager.LeaseCompleted | httpasyncclient/src/main/java-deprecated/org/apache/http/impl/nio/conn/PoolingClientAsyncConnectionManager.java:298-310 | A pending future receives a fresh handle on the entry and the pool is untouched. A future that is already done stays as it was, and the entry goes back to the pool as reusable |
| ConnectionManager.LeasedEntryHasOneOwner | httpasyncclient/src/main/java-deprecated/org/apache/http/impl/nio/conn/PoolingClientAsyncConnectionManager.java:299-310 | After a lease completes, exactly one of the caller's future and the pool owns the entry; it is never leaked |
| ConnectionManager.LeaseFailed | httpasyncclient/src/main/java-deprecated/org/apache/http/impl/nio/conn/PoolingClientAsyncConnectionManager.java:312-318 | The lease failure reaches a pending future unchanged; a done future is untouched |
| ConnectionManager.LeaseCancelled | httpasyncclient/src/main/java-deprecated/org/apache/http/impl/nio/conn/PoolingClientAsyncConnectionManager.java:320-324 | Cancellation cancels a pending future; a done future is untouched |
| Lifecycle.ApplyHandsOffAtMostOnce | httpasyncclient/src/main/java-deprecated/org/apache/http/impl/nio/conn/PoolingClientAsyncConnectionManager.java:198-229 | A single call either leaves the manager as it was or detaches an attached handle and appends exactly one release of its entry |
| Lifecycle.RunHandsOffAtMostOnce | httpasyncclient/src/main/java-deprecated/org/apache/http/impl/nio/conn/PoolingClientAsyncConnectionManager.java:198-229 | Over any sequence of calls, including repeated or mixed releases (through the handle or through the manager's `releaseConnection`) and aborts and an abort that throws before `open`, the pool receives the entry at most once, and only with the handle ending detached |
| Lifecycle.ReleaseReportsReuseFlag | httpasyncclient/src/main/java-deprecated/org/apache/http/impl/nio/conn/PoolingClientAsyncConnectionManager.java:228 | The pool receives the reuse flag the caller last set with mark/unmark |
| Lifecycle.IdleDurationBecomesKeepAlive | httpasyncclient/src/main/java-deprecated/org/apache/http/impl/nio/conn/ManagedClientAsyncConnectionImpl.java:418-425 | The idle duration of an open reusable handle becomes the released entry's keep-alive. A positive duration in milliseconds is used as given; a non-positive one means no idle limit |
| Lifecycle.DefaultDurationExpiresOnRelease | httpasyncclient/src/main/java-deprecated/org/apache/http/impl/nio/conn/ManagedClientAsyncConnectionImpl.java:66-76 | An open connection released at a positive time with the constructor's idle duration still in place goes to the pool as reusable but already expired at every non-negative time, because `now + Long.MAX_VALUE` wraps |
| AsyncValidator.Revalidate | httpasyncclient-cache/src/main/java/org/apache/http/impl/client/cache/AsynchronousAsyncValidator.java:98-114 | A key already in flight changes nothing. A new key whose job is accepted is added, alone, and submitted once. A rejected job changes nothing and reports nothing |
| AsyncValidator.NewValidator | httpasyncclient-cache/src/main/java/org/apache/http/impl/client/cache/AsynchronousAsyncValidator.java:88-93 | A new validator has no key in flight and has submitted nothing |
| AsyncValidator.MarkComplete | httpasyncclient-cache/src/main/java/org/apache/http/impl/client/cache/AsynchronousAsyncValidator.java:122-124 | Removes only the given key; an absent key is a no-op |
| AsyncValidator.ScheduledIdentifiers | httpasyncclient-cache/src/main/java/org/apache/http/impl/client/cache/AsynchronousAsyncValidator.java:126-128 | Exposes exactly the in-flight keys |
| AsyncValidator.DuplicateScheduleSubmitsOnce | httpasyncclient-cache/src/main/java/org/apache/http/impl/client/cache/AsynchronousAsyncValidator.java:101-109 | Scheduling one key twice with no completion in between submits at most one job |
| AsyncValidator.CompletionAllowsReschedule | httpasyncclient-cache/src/main/java/org/apache/http/impl/client/cache/AsynchronousAsyncValidator.java:103-124 | While in flight a key submits nothing; after `markComplete` it is submitted again, so de-duplication is not permanent |
| AsyncValidator.StepKeepsInv | httpasyncclient-cache/src/main/java/org/apache/http/impl/client/cache/AsynchronousAsyncValidator.java:98-124 | Each schedule or job completion keeps the running jobs equal to the in-flight keys, one job each |
| AsyncValidator.RunKeepsInv | httpasyncclient-cache/src/main/java/org/apache/http/impl/client/cache/AsynchronousAsyncValidator.java:98-124 | Any sequence of schedules and completions keeps that correspondence |
| AsyncValidator.AtMostOneJobPerKey | httpasyncclient-cache/src/main/java/org/apache/http/impl/client/cache/AsynchronousAsyncValidator.java:98-124 | From an empty validator, no key ever has two accepted jobs that have not yet completed, and a key has a running job exactly when it is in the scheduled set |

## Left out

- The pool implementation is not part of this model: leasing, per-route and total capacity, pending requests, statistics, idle/expired eviction and shutdown. The pool is a log of `release(entry, reusable)` calls plus its shut-down flag.
- `leaseConnection` is left out apart from the callback it installs, which is modelled. It also checks its route and time unit arguments and creates the caller's future before handing the lease to the pool.
- `setMaxTotal`, `getStats`, `closeIdleConnections`, `closeExpiredConnections`, `shutdown`, `execute` and `getStatus` are left out. They only forward to the pool or the reactor.
- Route tracker internals (an external library) are left out. The tracker's own assertions are not modelled; only the handle's checks are.
- ManagedConnections.TunnelProxy: on a connection opened directly, the model records the extra hop. The library's tracker would instead refuse a proxy tunnel without a proxy.
- ManagedConnections.TunnelTarget: on a connection opened directly, the model records the tunnel. The library's tracker would instead refuse a tunnel without a proxy, so in the program a direct route is never tunnelled and never layered; in the model it can be layered after `TunnelTarget`.
- The creation time `now` of a new entry is a parameter.
- The library's `PoolEntry` base class is not part of this model. Its deadline and expiry arithmetic are taken from the library as the unguarded `long` sums `now + ttl` (constructor) and `now + keepalive` (`updateExpiry`), capped by the deadline; the library version is not fixed here. If the library in use clamps an overflowing constructor deadline to `Long.MAX_VALUE`, as some releases may, `PoolEntries.NewEntry`'s born-expired case does not arise there and such an entry lives indefinitely.
- The scheme registry lookup is an oracle parameter: the context's registry or the manager's, and the error for an unregistered scheme. The connection factory is reduced to binding a connection to the session. Its `http-outgoing-<id>` naming is not modelled.
- The transport is reduced to a closed flag, an SSL flag, a bound-connection flag and a socket timeout. The connection's `isOpen` is read as "session not closed".
- The transport forwarding operations are I/O plumbing and are left out: metrics, addresses, ports, status, request/response, context, input/output control, `submitRequest`, resets, `getSSLSession`, and `isStale` (which forwards to `isOpen`).
- The time unit passed to the manager's release is not modelled. The handle always passes milliseconds, so the null check on the unit cannot fail on the modelled path.
- `synchronized`/`volatile` concurrency: each synchronized method is one atomic step.
- Logging, `toString`, `format`/`formatStats` and `finalize`.
- The validator's executor configuration and the cache key generator are left out. The revalidation job's own work is also left out: the job is an accepted submission that later completes and calls `markComplete` with its key.
- `getManager`, `getPoolEntry`, `getExecutor` and `getOperatedClientConnection` are plain getters and have no members of their own.

## Findings

| source | as written | input that shows it | evidently intended | confidence | as-written member | corrected member |
|---|---|---|---|---|---|---|
| httpasyncclient/src/main/java-deprecated/org/apache/http/impl/nio/conn/ManagedClientAsyncConnectionImpl.java:433-437 | `abortConnection` reads the session's connection attribute and calls `shutdown()` on it without a null check. `close`/`shutdown` make that check through `getConnection`. | An abort on a freshly leased, attached handle before `open` has bound a connection. It throws a null dereference after clearing the reuse flag, and the entry stays attached: the abort does not hand it to the pool; only a later release does. | Skip the shutdown when no connection is bound, then release the entry as non-reusable and detach. | low; not executed | ConnectionManager.AbortHandleAsWritten | ConnectionManager.AbortHandle |

=== FILE: async_validator.dfy ===
/**
  `AsynchronousAsyncValidator`: schedules background revalidations of stale
  cache entries, at most one per cache key at a time. The executor is an
  oracle that accepts or rejects each job; the cache key, derived from the
  request by the key generator, arrives as an opaque string.
 */
module AsyncValidator {

  /** The executor's answer to one `execute(job)`. */
  datatype Submission = Accepted | Rejected

  /**
    `queued` is the set of keys with a job in flight; `submitted` logs, in
    order, the key of every job the executor accepted.
   */
  datatype Validator = Validator(queued: set<string>, submitted: seq<string>)

  function NewValidator(): (v: Validator)
    ensures v.queued == {} && v.submitted == []
  {
    Validator({}, [])
  }

  /**
    `revalidateCacheEntry`: a key already in flight submits nothing; a new
    key is submitted, and recorded only if the executor accepted the job. A
    rejection is swallowed: nothing changes and nothing is reported.
   */
  function Revalidate(v: Validator, key: string, answer: Submission): (v': Validator)
    ensures key in v.queued ==> v' == v
    ensures answer == Rejected ==> v' == v
    ensures key !in v.queued && answer == Accepted ==>
      v'.queued == v.queued + {key} && v'.submitted == v.submitted + [key]
    ensures key in v'.queued
      || (answer == Rejected && key !in v.queued && v'.queued == v.queued)
  {
    if key in v.queued then v
    else match answer
      case Accepted => Validator(v.queued + {key}, v.submitted + [key])
      case Rejected => v
  }

  /** `markComplete`: forget the key, whether or not it was in flight. */
  function MarkComplete(v: Validator, key: string): (v': Validator)
    ensures key !in v'.queued
    ensures forall k :: k != key ==> (k in v'.queued <==> k in v.queued)
    ensures key !in v.queued ==> v' == v
    ensures v'.submitted == v.submitted
  {
    v.(queued := v.queued - {key})
  }

  /** `getScheduledIdentifiers`: a read-only view of the keys in flight. */
  function ScheduledIdentifiers(v: Validator): (keys: set<string>)
    ensures forall k :: k in keys <==> k in v.queued
  {
    v.queued
  }

  /** The validator together with the revalidation jobs currently running. */
  datatype System = System(validator: Validator, running: multiset<string>)

  /** The jobs running are exactly the keys in flight, one job each. */
  predicate Inv(sys: System) {
    sys.running == multiset(sys.validator.queued)
  }

  datatype Event =
    | Schedule(key: string, answer: Submission)
    | Finish(key: string)

  /**
    One step: a schedule call, where an accepted submission starts one job;
    or a running job finishing, which calls `markComplete` with its key.
   */
  function Step(sys: System, ev: Event): System {
    match ev
    case Schedule(key, answer) =>
      var v' := Revalidate(sys.validator, key, answer);
      var started := if |v'.submitted| > |sys.validator.submitted| then multiset{key} else multiset{};
      System(v', sys.running + started)
    case Finish(key) =>
      if key in sys.running then System(MarkComplete(sys.validator, key), sys.running - multiset{key})
      else sys
  }

  function Run(sys: System, events: seq<Event>): System
    decreases |events|
  {
    if events == [] then sys else Run(Step(sys, events[0]), events[1..])
  }

  lemma StepKeepsInv(sys: System, ev: Event)
    requires Inv(sys)
    ensures Inv(Step(sys, ev))
  {
    match ev
    case Schedule(key, answer) =>
      var v' := Revalidate(sys.validator, key, answer);
      if key !in sys.validator.queued && answer == Accepted {
        assert multiset(v'.queued) == multiset(sys.validator.queued) + multiset{key};
      }
    case Finish(key) =>
      if key in sys.running {
        assert key in sys.validator.queued;
        assert multiset(sys.validator.queued - {key}) == multiset(sys.validator.queued) - multiset{key};
      }
  }

  /** Any run from a consistent state stays consistent. */
  lemma {:induction false} RunKeepsInv(sys: System, events: seq<Event>)
    requires Inv(sys)
    ensures Inv(Run(sys, events))
    decreases |events|
  {
    if events != [] {
      StepKeepsInv(sys, events[0]);
      RunKeepsInv(Step(sys, events[0]), events[1..]);
    }
  }

  /** No key ever has two accepted jobs that have not yet completed. */
  lemma AtMostOneJobPerKey(events: seq<Event>, key: string)
    ensures Run(System(NewValidator(), multiset{}), events).running[key] <= 1
    ensures Run(System(NewValidator(), multiset{}), events).running[key] == 1
        <==> key in ScheduledIdentifiers(Run(System(NewValidator(), multiset{}), events).validator)
  {
    RunKeepsInv(System(NewValidator(), multiset{}), events);
  }

  /** Two schedules of one key with no completion between submit at most one job. */
  lemma DuplicateScheduleSubmitsOnce(v: Validator, key: string, a1: Submission, a2: Submission)
    ensures var v2 := Revalidate(Revalidate(v, key, a1), key, a2);
      |v2.submitted| <= |v.submitted| + 1
  {
  }

  /** Once its job completes, a key can be scheduled again. */
  lemma CompletionAllowsReschedule(v: Validator, key: string)
    requires key in v.queued
    ensures Revalidate(v, key, Accepted).submitted == v.submitted
    ensures Revalidate(MarkComplete(v, key), key, Accepted).submitted == v.submitted + [key]
  {
  }
}

=== FILE: common.dfy ===
/**
  Shared vocabulary of the model: optional values, the exceptions the
  connection layer can raise, success-or-error results, Java's `long` range
  and the millisecond conversion of `java.util.concurrent.TimeUnit`.
 */
module Common {

  /** `Long.MAX_VALUE`: the "indefinite" idle duration and expiry deadline. */
  const LongMax: int := 0x7fff_ffff_ffff_ffff
  const LongMin: int := -0x8000_0000_0000_0000

  predicate IsLong(x: int) {
    LongMin <= x <= LongMax
  }

  /** The number of distinct `long` values. */
  const LongRange: int := 0x1_0000_0000_0000_0000

  /**
    Java's `long` arithmetic: the exact value reduced, two's-complement
    style, into the `long` range. A sum just past `Long.MAX_VALUE` comes out
    negative.
   */
  function WrapLong(x: int): (r: int)
    ensures IsLong(r)
    ensures (x - r) % LongRange == 0
    ensures IsLong(x) ==> r == x
    ensures LongMax < x <= LongMax + LongMax ==> r == x - LongRange && r < 0
  {
    if IsLong(x) then x
    else if LongMax < x <= LongMax + LongMax then x - LongRange
    else (x - LongMin) % LongRange + LongMin
  }

  /** A Java reference that may be `null`. */
  datatype Option<+T> = None | Some(value: T)

  /**
    The exceptions raised along the modelled paths. `NullPointer` and
    `ClassCast` are the unchecked exceptions the JVM raises on a null
    dereference or a failed downcast; `Unchecked` is any other runtime
    exception coming out of the transport.
   */
  datatype Error =
    | ConnectionShutdown
    | IllegalState(message: string)
    | IllegalArgument(message: string)
    | NullPointer
    | ClassCast
    | IoError
    | Unchecked
    | LeaseFailure(cause: string)

  /** Either the new value, or the exception thrown before anything changed. */
  datatype Result<+T> = Ok(value: T) | Err(error: Error) {
    predicate IsFailure() {
      Err?
    }

    function PropagateFailure<U>(): Result<U>
      requires Err?
    {
      Err(error)
    }

    function Extract(): T
      requires Ok?
    {
      value
    }
  }

  datatype TimeUnit =
    | Nanoseconds
    | Microseconds
    | Milliseconds
    | Seconds
    | Minutes
    | Hours
    | Days

  /** Milliseconds in one unit, for the units no finer than a millisecond. */
  function MillisPerUnit(u: TimeUnit): (k: nat)
    requires u != Nanoseconds && u != Microseconds
    ensures 1 <= k
  {
    match u
    case Milliseconds => 1
    case Seconds => 1000
    case Minutes => 60_000
    case Hours => 3_600_000
    case Days => 86_400_000
  }

  /**
    `unit.toMillis(d)` for a positive `long` duration: sub-millisecond units
    truncate, coarser units saturate at `Long.MAX_VALUE` instead of
    overflowing.
   */
  function ToMillis(d: int, u: TimeUnit): (r: int)
    requires 0 < d <= LongMax
    ensures 0 <= r <= LongMax
    ensures u == Milliseconds ==> r == d
    ensures u == Nanoseconds || u == Microseconds ==> r <= d
    ensures u != Nanoseconds && u != Microseconds ==> d <= r
    ensures u != Nanoseconds && u != Microseconds && r < LongMax ==> r == d * MillisPerUnit(u)
  {
    match u
    case Nanoseconds => d / 1_000_000
    case Microseconds => d / 1000
    case _ =>
      var k := MillisPerUnit(u);
      if d > LongMax / k then LongMax else d * k
  }
}

=== FILE: connection_manager.dfy ===
/**
  `PoolingClientAsyncConnectionManager`: the release cascade that hands a
  handle's entry back to the pool, the handle's own `releaseConnection` and
  `abortConnection` that call into it, and the callback that turns a leased
  pool entry into a handle. The pool itself is only a log of the
  `pool.release(entry, reusable)` calls it receives.
 */
module ConnectionManager {
  import opened Common
  import opened PoolEntries
  import opened ManagedConnections

  /** One `pool.release(entry, reusable)` call. */
  datatype PoolEvent = PoolRelease(entry: Entry, reusable: bool)

  datatype Pool = Pool(shutdown: bool, events: seq<PoolEvent>)

  datatype Manager = Manager(self: ManagerRef, pool: Pool)

  /** What `releaseConnection` is handed: null, some other implementation, or a managed handle. */
  datatype Connection = NullConnection | ForeignConnection | Managed(handle: Handle)

  /**
    The state after a release that got past its argument checks, and the
    exception it still throws, if any, once its `finally` block has run.
   */
  datatype Released = Released(manager: Manager, handle: Handle, raised: Option<Error>)

  /** The pool after one more `pool.release(entry, reusable)`. */
  function HandBack(m: Manager, entry: Entry, reusable: bool): (m': Manager)
    ensures m'.self == m.self && m'.pool.shutdown == m.pool.shutdown
    ensures m'.pool.events == m.pool.events + [PoolRelease(entry, reusable)]
  {
    m.(pool := m.pool.(events := m.pool.events + [PoolRelease(entry, reusable)]))
  }

  /**
    The `try` block of the release: shut a non-reusable open connection
    down, swallowing an I/O error; then, if it is still open, push the
    entry's expiry out by the keep-alive and stop timing the socket out.
   */
  function PrepareForPool(h: Handle, keepalive: int, now: int): (r: (Handle, Option<Error>))
    requires h.Attached()
    ensures r.0.Attached() && r.0.reusable == h.reusable && r.0.duration == h.duration && r.0.manager == h.manager
    ensures r.0.entry.value.id == h.entry.value.id && r.0.entry.value.tracker == h.entry.value.tracker
    ensures r.0.entry.value.route == h.entry.value.route && r.0.entry.value.state == h.entry.value.state
    ensures r.1.Some? ==> r.1 == Some(Unchecked) && IsOpen(h) && !h.reusable && r.0 == h
    ensures r.1.None? && IsOpen(r.0) ==>
      && r.0.entry.value.expiry == UpdateExpiry(h.entry.value, keepalive, now).expiry
      && r.0.entry.value.session.socketTimeout == 0
    ensures !IsOpen(r.0) ==> r.0.entry.value.expiry == h.entry.value.expiry
    ensures !IsOpen(h) ==> r == (h, None)
    ensures IsOpen(h) && !h.reusable && h.entry.value.session.onShutdown == ShutsDown ==>
      r.1.None? && r.0.entry.value.session.closed
    ensures IsOpen(h) && (h.reusable || h.entry.value.session.onShutdown == ThrowsIo) ==> r.1.None? && IsOpen(r.0)
  {
    var (h1, fault) :=
      if IsOpen(h) && !h.reusable then
        match Shutdown(h)
        case Ok(h') => (h', None)
        case Err(IoError) => (h, None)
        case Err(x) => (h, Some(x))
      else (h, None);
    if fault.Some? then (h1, fault)
    else if IsOpen(h1) then
      var e := UpdateExpiry(h1.entry.value, keepalive, now);
      (h1.(entry := Some(e.(session := e.session.(socketTimeout := 0)))), None)
    else (h1, None)
  }

  /**
    `releaseConnection(conn, keepalive, MILLISECONDS)`. Null, foreign or
    other-manager handles are refused with an illegal-argument error; a shut
    down pool or an already detached handle is left alone; otherwise the
    entry is prepared, and then detached and handed to the pool exactly once
    with the handle's reuse flag at that moment, even when preparing threw.
   */
  function ReleaseConnection(m: Manager, c: Connection, keepalive: int, now: int): (r: Result<Released>)
    ensures c.NullConnection? || c.ForeignConnection? ==> r.Err? && r.error.IllegalArgument?
    ensures c.Managed? && c.handle.manager.Some? && c.handle.manager.value != m.self ==>
      r == Err(IllegalArgument("Connection not obtained from this manager"))
    ensures r.Ok? <==> c.Managed? && (c.handle.manager.None? || c.handle.manager.value == m.self)
    ensures r.Ok? && (m.pool.shutdown || !c.handle.Attached()) ==> r.value == Released(m, c.handle, None)
    ensures r.Ok? && !m.pool.shutdown && c.handle.Attached() ==>
      var rel, h := r.value, c.handle;
      && !rel.handle.Attached()
      && rel.handle.reusable == h.reusable && rel.handle.duration == h.duration
      && rel.manager.self == m.self && rel.manager.pool.shutdown == m.pool.shutdown
      && |rel.manager.pool.events| == |m.pool.events| + 1
      && rel.manager.pool.events[..|m.pool.events|] == m.pool.events
      && var ev := rel.manager.pool.events[|m.pool.events|];
         && ev.reusable == h.reusable
         && ev.entry.id == h.entry.value.id && ev.entry.tracker == h.entry.value.tracker
         && ev.entry == h.entry.value.(session := ev.entry.session, expiry := ev.entry.expiry)
         && ev.entry.session == h.entry.value.session.(closed := ev.entry.session.closed, socketTimeout := ev.entry.session.socketTimeout)
         && (!IsOpen(h) ==> ev.entry == h.entry.value)
         && (IsOpen(h) && !h.reusable && h.entry.value.session.onShutdown == ShutsDown ==> IsClosed(ev.entry))
         && (IsOpen(h) && (h.reusable || h.entry.value.session.onShutdown == ThrowsIo) ==>
               && ev.entry.expiry == UpdateExpiry(h.entry.value, keepalive, now).expiry
               && ev.entry.session.socketTimeout == 0)
         && (rel.raised.Some? <==> IsOpen(h) && !h.reusable && h.entry.value.session.onShutdown == ThrowsUnchecked)
         && (rel.raised.Some? ==> ev.entry == h.entry.value)
         && (IsOpen(h) && !h.reusable && h.entry.value.session.onShutdown == ShutsDown ==>
               ev.entry == h.entry.value.(session := h.entry.value.session.(closed := true)))
    ensures r.Ok? ==> r.value.handle.manager == c.handle.manager && r.value.manager.self == m.self
  {
    match c
    case NullConnection => Err(IllegalArgument("HTTP connection may not be null"))
    case ForeignConnection => Err(IllegalArgument("Connection class mismatch, connection not obtained from this manager"))
    case Managed(h) =>
      if h.manager.Some? && h.manager.value != m.self then Err(IllegalArgument("Connection not obtained from this manager"))
      else if m.pool.shutdown then Ok(Released(m, h, None))
      else if !h.Attached() then Ok(Released(m, h, None))
      else
        var (h1, fault) := PrepareForPool(h, keepalive, now);
        var (h2, entry) := Detach(h1);
        Ok(Released(HandBack(m, entry.value, h2.reusable), h2, fault))
  }

  /** The manager a handle calls back into is the one it was issued by. */
  predicate CallsInto(h: Handle, m: Manager) {
    h.manager.None? || h.manager == Some(m.self)
  }

  /**
    The handle's `releaseConnection()`: a no-op once detached; otherwise one
    call to its manager's release with the handle's idle duration as the
    keep-alive, after which the handle is detached. A handle built without a
    manager fails on the null dereference.
   */
  function ReleaseHandle(m: Manager, h: Handle, now: int): (r: Released)
    requires CallsInto(h, m)
    ensures !h.Attached() ==> r == Released(m, h, None)
    ensures r.handle.reusable == h.reusable && r.handle.duration == h.duration && r.handle.manager == h.manager
    ensures h.Attached() && h.manager.None? ==> r == Released(m, h, Some(NullPointer))
    ensures h.Attached() && h.manager.Some? ==> !r.handle.Attached()
    ensures h.Attached() && h.manager.Some? && m.pool.shutdown ==> r.manager == m && r.raised.None?
    ensures h.Attached() && h.manager.Some? && !m.pool.shutdown ==>
      && r.manager.self == m.self && r.manager.pool.shutdown == m.pool.shutdown
      && |r.manager.pool.events| == |m.pool.events| + 1
      && r.manager.pool.events[..|m.pool.events|] == m.pool.events
      && r.manager.pool.events[|m.pool.events|].reusable == h.reusable
      && r.manager.pool.events[|m.pool.events|].entry.id == h.entry.value.id
    ensures r.manager.self == m.self && r.manager.pool.shutdown == m.pool.shutdown
    ensures r.raised != Some(IoError)
  {
    if !h.Attached() then Released(m, h, None)
    else if h.manager.None? then Released(m, h, Some(NullPointer))
    else
      match ReleaseConnection(m, Managed(h), h.duration, now)
      case Ok(rel) => rel.(handle := rel.handle.(entry := None))
      case Err(x) => assert false; Released(m, h, Some(x))
  }

  /**
    The handle's `abortConnection()`: a no-op once detached; otherwise the
    handle is marked non-reusable, the bound connection (if any) is shut down
    with any I/O error swallowed, and the entry is released as by
    `ReleaseHandle`. This is the intended behaviour; the code as written is
    `AbortHandleAsWritten`.
   */
  function AbortHandle(m: Manager, h: Handle, now: int): (r: Released)
    requires CallsInto(h, m)
    ensures !h.Attached() ==> r == Released(m, h, None)
    ensures h.Attached() ==> !r.handle.reusable
    ensures r.raised != Some(IoError)
    ensures r.manager.self == m.self && r.manager.pool.shutdown == m.pool.shutdown
    ensures h.Attached() && h.manager.Some? && h.entry.value.session.onShutdown != ThrowsUnchecked ==>
      !r.handle.Attached() && r.raised.None?
    ensures h.Attached() && h.manager.Some? && !m.pool.shutdown && h.entry.value.session.onShutdown != ThrowsUnchecked ==>
      && |r.manager.pool.events| == |m.pool.events| + 1
      && r.manager.pool.events[..|m.pool.events|] == m.pool.events
      && r.manager.pool.events[|m.pool.events|].reusable == false
      && r.manager.pool.events[|m.pool.events|].entry.id == h.entry.value.id
    ensures r.handle.Attached() ==> r.manager == m
  {
    if !h.Attached() then Released(m, h, None)
    else
      var h1 := UnmarkReusable(h);
      match Shutdown(h1)
      case Ok(h2) => ReleaseHandle(m, h2, now)
      case Err(IoError) => ReleaseHandle(m, h1, now)
      case Err(x) => Released(m, h1, Some(x))
  }

  /**
    `abortConnection()` as written: the connection attribute is dereferenced
    without the null check that `close` and `shutdown` make, so aborting a
    handle whose session has no connection bound yet throws before anything
    is released.
   */
  function AbortHandleAsWritten(m: Manager, h: Handle, now: int): (r: Released)
    requires CallsInto(h, m)
    ensures !h.Attached() ==> r == Released(m, h, None)
    ensures h.Attached() && !h.entry.value.session.hasConnection ==>
      r == Released(m, UnmarkReusable(h), Some(NullPointer))
    ensures h.Attached() && h.entry.value.session.hasConnection ==> r == AbortHandle(m, h, now)
  {
    if !h.Attached() then Released(m, h, None)
    else
      var h1 := UnmarkReusable(h);
      if !h1.entry.value.session.hasConnection then Released(m, h1, Some(NullPointer))
      else AbortHandle(m, h, now)
  }

  /** The caller's `BasicFuture` for a lease. */
  datatype Future = Pending | Completed(handle: Handle) | Failed(error: Error) | Cancelled

  /** Whether the future delivered a handle attached to `entry`. */
  predicate HeldBy(f: Future, entry: Entry) {
    f.Completed? && f.handle.entry == Some(entry)
  }

  /**
    `InternalPoolEntryCallback.completed(entry)`: wrap the entry in a fresh
    handle for the caller's future; if the future is already done, give the
    entry straight back to the pool as reusable.
   */
  function LeaseCompleted(m: Manager, f: Future, entry: Entry): (r: (Manager, Future))
    ensures f.Pending? ==> r.0 == m && r.1.Completed? && r.1.handle == NewHandle(Some(m.self), entry)
    ensures !f.Pending? ==> r.1 == f && r.0 == HandBack(m, entry, true)
  {
    if f.Pending? then (m, Completed(NewHandle(Some(m.self), entry)))
    else (HandBack(m, entry, true), f)
  }

  /** `failed(ex)`: the failure reaches a still pending future unchanged. */
  function LeaseFailed(f: Future, ex: Error): (f': Future)
    ensures f.Pending? ==> f' == Failed(ex)
    ensures !f.Pending? ==> f' == f
  {
    if f.Pending? then Failed(ex) else f
  }

  /** `cancelled()`: cancels a still pending future. */
  function LeaseCancelled(f: Future): (f': Future)
    ensures f.Pending? ==> f' == Cancelled
    ensures !f.Pending? ==> f' == f
  {
    if f.Pending? then Cancelled else f
  }

  /**
    A leased entry always ends with exactly one owner: the caller's future,
    through a fresh handle, or — when the future was already completed,
    failed or cancelled — the pool, as a reusable entry.
   */
  lemma LeasedEntryHasOneOwner(m: Manager, f: Future, entry: Entry)
    requires !HeldBy(f, entry)
    ensures var (m', f') := LeaseCompleted(m, f, entry);
      HeldBy(f', entry) != (m'.pool.events == m.pool.events + [PoolRelease(entry, true)])
    ensures var (m', f') := LeaseCompleted(m, f, entry);
      (HeldBy(f', entry) ==> m' == m) && (!HeldBy(f', entry) ==> f' == f)
  {
  }

  /**
    Aborting a handle before `open` has bound a connection: as written the
    abort throws a null dereference and the entry stays attached; the abort
    does not hand it to the pool, only a later release does. The intended
    abort releases it as non-reusable.
   */
  lemma AbortBeforeOpen(m: Manager, e: Entry, now: int)
    requires !m.pool.shutdown && !e.session.hasConnection
    ensures var r := AbortHandleAsWritten(m, NewHandle(Some(m.self), e), now);
      r.raised == Some(NullPointer) && r.handle.Attached() && r.manager == m
    ensures var r := AbortHandle(m, NewHandle(Some(m.self), e), now);
      r.raised.None? && !r.handle.Attached() && r.manager.pool.events == m.pool.events + [PoolRelease(e, false)]
  {
  }
}

=== FILE: lifecycle.dfy ===
/**
  Whole lifetimes of one handle: any sequence of calls a caller can make on
  it, each taken as one atomic step, and what holds across all of them. A
  call that throws before changing anything leaves the state as it was.
  Abort is `abortConnection` as written, so a handle aborted before `open`
  stays attached and can go on being used.
 */
module Lifecycle {
  import opened Common
  import Routes
  import PoolEntries
  import opened ManagedConnections
  import opened ConnectionManager

  datatype Call =
    | CallOpen(route: Routes.Route, scheme: Scheme)
    | CallTunnelProxy(next: Routes.Host)
    | CallTunnelTarget
    | CallLayerProtocol(scheme: Scheme)
    | CallSetState(state: Option<PoolEntries.Token>)
    | CallMarkReusable
    | CallUnmarkReusable
    | CallSetIdleDuration(duration: int, unit: TimeUnit)
    | CallSetSocketTimeout(timeout: int)
    | CallShutdown
    | CallClose
    | CallRelease(now: int)
    | CallAbort(now: int)
    | CallManagerRelease(keepalive: int, at: int)

  datatype World = World(manager: Manager, handle: Handle)

  /** The handle after a call that may throw: unchanged if it did. */
  function OrKeep(r: Result<Handle>, h: Handle): Handle {
    if r.Ok? then r.value else h
  }

  function Apply(w: World, c: Call): (w': World)
    requires CallsInto(w.handle, w.manager)
    ensures CallsInto(w'.handle, w'.manager)
    ensures w'.handle.manager == w.handle.manager
  {
    var h := w.handle;
    match c
    case CallOpen(route, scheme) => w.(handle := OrKeep(Open(h, route, scheme), h))
    case CallTunnelProxy(next) => w.(handle := OrKeep(TunnelProxy(h, next), h))
    case CallTunnelTarget => w.(handle := OrKeep(TunnelTarget(h), h))
    case CallLayerProtocol(scheme) => w.(handle := OrKeep(LayerProtocol(h, scheme), h))
    case CallSetState(state) => w.(handle := OrKeep(SetState(h, state), h))
    case CallMarkReusable => w.(handle := MarkReusable(h))
    case CallUnmarkReusable => w.(handle := UnmarkReusable(h))
    case CallSetIdleDuration(d, unit) => if IsLong(d) then w.(handle := SetIdleDuration(h, d, unit)) else w
    case CallSetSocketTimeout(t) => w.(handle := OrKeep(SetSocketTimeout(h, t), h))
    case CallShutdown => w.(handle := OrKeep(Shutdown(h), h))
    case CallClose => w.(handle := OrKeep(Close(h), h))
    case CallRelease(now) =>
      var r := ReleaseHandle(w.manager, h, now);
      World(r.manager, r.handle)
    case CallAbort(now) =>
      var r := AbortHandleAsWritten(w.manager, h, now);
      World(r.manager, r.handle)
    case CallManagerRelease(keepalive, at) =>
      match ReleaseConnection(w.manager, Managed(h), keepalive, at)
      case Ok(r) => World(r.manager, r.handle)
      case Err(_) => w
  }

  function Run(w: World, calls: seq<Call>): (w': World)
    requires CallsInto(w.handle, w.manager)
    ensures CallsInto(w'.handle, w'.manager)
    decreases |calls|
  {
    if calls == [] then w else Run(Apply(w, calls[0]), calls[1..])
  }

  /** The tracker of an attached handle is in a legal state of the connect/tunnel/layer order. */
  predicate Ordered(h: Handle) {
    h.Attached() ==> Routes.WellOrdered(h.entry.value.tracker)
  }

  lemma ApplyKeepsOrdered(w: World, c: Call)
    requires CallsInto(w.handle, w.manager) && Ordered(w.handle)
    ensures Ordered(Apply(w, c).handle)
  {
  }

  /**
    Whatever a caller does, the route steps a handle records follow the
    order open, then tunnel, then layer: nothing is tunnelled or layered on a
    connection that is not open, and layering never happens without a tunnel.
   */
  lemma {:induction false} RunKeepsOrdered(w: World, calls: seq<Call>)
    requires CallsInto(w.handle, w.manager) && Ordered(w.handle)
    ensures Ordered(Run(w, calls).handle)
    decreases |calls|
  {
    if calls != [] {
      ApplyKeepsOrdered(w, calls[0]);
      RunKeepsOrdered(Apply(w, calls[0]), calls[1..]);
    }
  }

  /** A freshly leased handle starts in the initial, well-ordered state. */
  lemma FreshHandleOrdered(m: Manager, entry: PoolEntries.Entry, route: Routes.Route, ttl: int, unit: TimeUnit, now: int, id: string, s: PoolEntries.Session)
    requires IsLong(ttl) && entry == PoolEntries.NewEntry(id, route, s, ttl, unit, now)
    ensures Ordered(NewHandle(Some(m.self), entry))
    ensures GetRoute(NewHandle(Some(m.self), entry)) == Ok(None)
  {
  }

  /** A single call never swaps the entry of a handle that stays attached. */
  lemma ApplyKeepsPlannedRoute(w: World, c: Call)
    requires CallsInto(w.handle, w.manager) && w.handle.Attached()
    ensures var h' := Apply(w, c).handle;
      h'.Attached() ==>
        && h'.entry.value.id == w.handle.entry.value.id
        && h'.entry.value.route == w.handle.entry.value.route
  {
  }

  /** While the handle stays attached, its entry is the one it was leased with, on the same planned route. */
  lemma {:induction false} RunKeepsPlannedRoute(w: World, calls: seq<Call>)
    requires CallsInto(w.handle, w.manager) && w.handle.Attached()
    ensures var h' := Run(w, calls).handle;
      h'.Attached() ==>
        && h'.entry.value.id == w.handle.entry.value.id
        && PoolEntries.PlannedRoute(h'.entry.value) == PoolEntries.PlannedRoute(w.handle.entry.value)
    decreases |calls|
  {
    if calls != [] {
      var w1 := Apply(w, calls[0]);
      ApplyKeepsPlannedRoute(w, calls[0]);
      if w1.handle.Attached() {
        RunKeepsPlannedRoute(w1, calls[1..]);
      } else {
        DetachedStaysDetached(w1, calls[1..]);
      }
    }
  }

  /** Once detached, a handle never gets an entry back and never touches the pool again. */
  lemma {:induction false} DetachedStaysDetached(w: World, calls: seq<Call>)
    requires CallsInto(w.handle, w.manager) && !w.handle.Attached()
    ensures !Run(w, calls).handle.Attached()
    ensures Run(w, calls).manager == w.manager
    decreases |calls|
  {
    if calls != [] {
      DetachedStaysDetached(Apply(w, calls[0]), calls[1..]);
    }
  }

  /** After release or abort every entry operation reports the connection as shut down. */
  lemma DetachedHandleIsInert(h: Handle, route: Routes.Route, scheme: Scheme, next: Routes.Host, state: Option<PoolEntries.Token>, timeout: int)
    requires !h.Attached()
    ensures Open(h, route, scheme) == Err(ConnectionShutdown)
    ensures TunnelProxy(h, next) == Err(ConnectionShutdown)
    ensures TunnelTarget(h) == Err(ConnectionShutdown)
    ensures LayerProtocol(h, scheme) == Err(ConnectionShutdown)
    ensures GetRoute(h) == Err(ConnectionShutdown)
    ensures GetState(h) == Err(ConnectionShutdown)
    ensures SetState(h, state) == Err(ConnectionShutdown)
    ensures EnsureConnection(h) == Err(ConnectionShutdown)
    ensures SetSocketTimeout(h, timeout) == Err(ConnectionShutdown)
    ensures GetSocketTimeout(h) == Err(ConnectionShutdown)
    ensures IsSecure(h) == Err(ConnectionShutdown)
    ensures !IsOpen(h) && Shutdown(h) == Ok(h) && Close(h) == Ok(h)
  {
  }

  /** Calls that neither release the handle, through it or through its manager, nor abort it. */
  predicate KeepsEntry(c: Call) {
    !c.CallRelease? && !c.CallAbort? && !c.CallManagerRelease?
  }

  /**
    Only release and abort reach the pool entry's expiry: across any other
    calls an attached handle stays attached, its entry's
    expiry and time-to-live deadline are unchanged (so it is expired at
    exactly the same times), a closed entry stays closed, and the pool is
    not touched.
   */
  lemma {:induction false} RunWithoutHandOffKeepsExpiry(w: World, calls: seq<Call>)
    requires CallsInto(w.handle, w.manager) && w.handle.Attached()
    requires forall i :: 0 <= i < |calls| ==> KeepsEntry(calls[i])
    ensures var w' := Run(w, calls);
      && w'.manager == w.manager
      && w'.handle.Attached()
      && w'.handle.entry.value.expiry == w.handle.entry.value.expiry
      && w'.handle.entry.value.deadline == w.handle.entry.value.deadline
      && (forall t :: PoolEntries.IsExpired(w'.handle.entry.value, t) == PoolEntries.IsExpired(w.handle.entry.value, t))
      && (PoolEntries.IsClosed(w.handle.entry.value) ==> PoolEntries.IsClosed(w'.handle.entry.value))
    decreases |calls|
  {
    if calls != [] {
      var w1 := Apply(w, calls[0]);
      assert forall i :: 0 <= i < |calls[1..]| ==> KeepsEntry(calls[1..][i]) by {
        forall i | 0 <= i < |calls[1..]| ensures KeepsEntry(calls[1..][i]) {
          assert calls[1..][i] == calls[i + 1];
        }
      }
      RunWithoutHandOffKeepsExpiry(w1, calls[1..]);
    }
  }

  /** One call hands the entry to the pool at most once, and only by detaching the handle. */
  lemma ApplyHandsOffAtMostOnce(w: World, c: Call)
    requires CallsInto(w.handle, w.manager)
    ensures var w' := Apply(w, c);
      w'.handle.Attached() ==> w.handle.Attached() && w'.handle.entry.value.id == w.handle.entry.value.id
    ensures var w' := Apply(w, c);
      || w'.manager == w.manager
      || (&& w.handle.Attached() && !w'.handle.Attached()
          && w'.manager.self == w.manager.self && w'.manager.pool.shutdown == w.manager.pool.shutdown
          && |w'.manager.pool.events| == |w.manager.pool.events| + 1
          && w'.manager.pool.events[..|w.manager.pool.events|] == w.manager.pool.events
          && w'.manager.pool.events[|w.manager.pool.events|].entry.id == w.handle.entry.value.id)
  {
  }

  /**
    Across any sequence of calls — releases, aborts, repeated or mixed — the
    pool receives the handle's entry at most once, and if it does the handle
    ends up detached.
   */
  lemma {:induction false} RunHandsOffAtMostOnce(w: World, calls: seq<Call>)
    requires CallsInto(w.handle, w.manager)
    ensures var w' := Run(w, calls);
      && w'.manager.self == w.manager.self
      && |w.manager.pool.events| <= |w'.manager.pool.events| <= |w.manager.pool.events| + 1
      && w'.manager.pool.events[..|w.manager.pool.events|] == w.manager.pool.events
      && (|w'.manager.pool.events| == |w.manager.pool.events| + 1 ==>
            w.handle.Attached() && !w'.handle.Attached()
            && w'.manager.pool.events[|w.manager.pool.events|].entry.id == w.handle.entry.value.id)
    decreases |calls|
  {
    if calls != [] {
      var w1 := Apply(w, calls[0]);
      ApplyHandsOffAtMostOnce(w, calls[0]);
      if w1.manager == w.manager {
        RunHandsOffAtMostOnce(w1, calls[1..]);
      } else {
        DetachedStaysDetached(w1, calls[1..]);
        assert w1.manager.pool.events[..|w.manager.pool.events|] == w.manager.pool.events;
      }
    }
  }

  /** The reuse flag a caller last set is the one the pool receives on release. */
  lemma ReleaseReportsReuseFlag(m: Manager, h: Handle, now: int)
    requires h.Attached() && h.manager == Some(m.self) && !m.pool.shutdown
    ensures ReleaseHandle(m, MarkReusable(h), now).manager.pool.events[|m.pool.events|].reusable
    ensures !ReleaseHandle(m, UnmarkReusable(h), now).manager.pool.events[|m.pool.events|].reusable
  {
  }

  /**
    The idle duration set on an open, reusable handle becomes the keep-alive
    of the released entry: a positive one in milliseconds bounds its expiry,
    a non-positive one leaves only the time-to-live deadline.
   */
  lemma IdleDurationBecomesKeepAlive(m: Manager, h: Handle, d: int, unit: TimeUnit, now: int)
    requires h.Attached() && h.manager == Some(m.self) && !m.pool.shutdown
    requires IsOpen(h) && h.reusable && IsLong(d)
    ensures var h' := SetIdleDuration(h, d, unit);
      var ev := ReleaseHandle(m, h', now).manager.pool.events[|m.pool.events|];
      && ev.reusable
      && ev.entry.expiry == PoolEntries.UpdateExpiry(h.entry.value, h'.duration, now).expiry
      && (d > 0 && unit == Milliseconds ==> ev.entry.expiry == PoolEntries.UpdateExpiry(h.entry.value, d, now).expiry)
      && (d <= 0 ==> ev.entry.expiry == PoolEntries.UpdateExpiry(h.entry.value, 0, now).expiry)
  {
    var h' := SetIdleDuration(h, d, unit);
    assert IsOpen(h') && h'.entry == h.entry;
  }

  /**
    A handle released without `setIdleDuration` keeps the constructor's
    idle duration of `Long.MAX_VALUE`, and that becomes the keep-alive. Added
    to any positive clock reading in `long` arithmetic it wraps negative, so
    an open, reusable connection reaches the pool already expired.
   */
  lemma DefaultDurationExpiresOnRelease(m: Manager, entry: PoolEntries.Entry, now: int)
    requires !m.pool.shutdown && 0 < now <= LongMax
    requires entry.session.hasConnection && !entry.session.closed
    ensures var ev := ReleaseHandle(m, NewHandle(Some(m.self), entry), now).manager.pool.events[|m.pool.events|];
      && ev.reusable
      && ev.entry.id == entry.id
      && forall t :: t >= 0 ==> PoolEntries.IsExpired(ev.entry, t)
  {
    var h := NewHandle(Some(m.self), entry);
    assert IsOpen(h) && h.duration == LongMax;
  }

  /**
    Layering needs a tunnel even on a direct route: opening a direct
    connection and layering straight away is refused.
   */
  lemma DirectRouteCannotLayer(h: Handle, route: Routes.Route, scheme: Scheme, layerScheme: Scheme)
    requires h.Attached() && Ordered(h) && !h.entry.value.tracker.connected && route.proxies == []
    ensures Open(h, route, scheme).Ok?
    ensures LayerProtocol(Open(h, route, scheme).value, layerScheme)
      == Err(IllegalState("Protocol layering without a tunnel not supported"))
  {
  }

  /**
    The full proxied sequence: open to the proxy, tunnel to the target, then
    layer once; a second layering and a second tunnel are refused, and the
    effective route then reports the tunnelled, layered path.
   */
  lemma ProxiedTunnelThenLayer(h: Handle, route: Routes.Route, open: Scheme, ls: LayeringStrategy)
    requires h.Attached() && Ordered(h) && !h.entry.value.tracker.connected
    requires route.proxies != [] && ls.yieldsSsl
    ensures Open(h, route, open).Ok?
    ensures TunnelTarget(Open(h, route, open).value).Ok?
    ensures LayerProtocol(TunnelTarget(Open(h, route, open).value).value, Scheme("https", Some(ls))).Ok?
    ensures var h3 := LayerProtocol(TunnelTarget(Open(h, route, open).value).value, Scheme("https", Some(ls))).value;
      && LayerProtocol(h3, Scheme("https", Some(ls))) == Err(IllegalState("Multiple protocol layering not supported"))
      && TunnelTarget(h3) == Err(IllegalState("Connection is already tunnelled"))
      && GetRoute(h3) == Ok(Some(Routes.Route(h.entry.value.tracker.target, [route.proxies[0]], ls.secure, true, true)))
  {
  }
}

=== FILE: managed_connection.dfy ===
/**
  `ManagedClientAsyncConnectionImpl`: the caller's handle on a leased pool
  entry. It holds the entry until it is detached, the reuse flag and the
  idle duration to report on release, and it checks every route step against
  the entry's tracker before recording it. Release and abort call back into
  the connection manager and live in module ConnectionManager.
 */
module ManagedConnections {
  import opened Common
  import opened Routes
  import opened PoolEntries

  /** Identity of a connection manager instance. */
  datatype ManagerRef = ManagerRef(id: nat)

  /** A scheme's layering strategy: its `isSecure()` and whether `layer` yields an `SSLIOSession`. */
  datatype LayeringStrategy = LayeringStrategy(secure: bool, yieldsSsl: bool)

  /** The scheme the registry resolves for a host (an oracle). */
  datatype Scheme = Scheme(name: string, strategy: Option<LayeringStrategy>)

  datatype Handle = Handle(
    manager: Option<ManagerRef>,
    entry: Option<Entry>,
    reusable: bool,
    duration: int)
  {
    predicate Attached() {
      entry.Some?
    }
  }

  /** The constructor: attached to the leased entry, reusable, idle duration `Long.MAX_VALUE`. */
  function NewHandle(manager: Option<ManagerRef>, entry: Entry): (h: Handle)
    ensures h.Attached() && h.entry.value == entry && h.manager == manager
    ensures h.reusable && h.duration == LongMax
  {
    Handle(manager, Some(entry), true, LongMax)
  }

  /** `detach()`: hand back the entry and clear the slot. */
  function Detach(h: Handle): (r: (Handle, Option<Entry>))
    ensures !r.0.Attached() && r.1 == h.entry
    ensures r.0.reusable == h.reusable && r.0.duration == h.duration && r.0.manager == h.manager
  {
    (h.(entry := None), h.entry)
  }

  /** `ensurePoolEntry()`: the entry, or "connection shut down" once detached. */
  function EnsurePoolEntry(h: Handle): (r: Result<Entry>)
    ensures r.Err? <==> !h.Attached()
    ensures r.Err? ==> r.error == ConnectionShutdown
    ensures r.Ok? ==> Some(r.value) == h.entry
  {
    if h.entry.None? then Err(ConnectionShutdown) else Ok(h.entry.value)
  }

  /**
    `ensureConnection()` followed by a use of its result: "connection shut
    down" once detached; a null dereference while no connection is bound to
    the session yet.
   */
  function EnsureConnection(h: Handle): (r: Result<Session>)
    ensures !h.Attached() ==> r == Err(ConnectionShutdown)
    ensures h.Attached() && !h.entry.value.session.hasConnection ==> r == Err(NullPointer)
    ensures r.Ok? <==> h.Attached() && h.entry.value.session.hasConnection
    ensures r.Ok? ==> r.value == h.entry.value.session
  {
    if h.entry.None? then Err(ConnectionShutdown)
    else if !h.entry.value.session.hasConnection then Err(NullPointer)
    else Ok(h.entry.value.session)
  }

  /** Replace the entry's session, leaving everything else as it was. */
  function WithSession(h: Handle, s: Session): Handle
    requires h.Attached()
  {
    h.(entry := Some(h.entry.value.(session := s)))
  }

  /** Replace the entry's tracker, leaving everything else as it was. */
  function WithTracker(h: Handle, t: Tracker): Handle
    requires h.Attached()
  {
    h.(entry := Some(h.entry.value.(tracker := t)))
  }

  /** `isOpen()`: false once detached or before a connection is bound; else the connection's state. */
  predicate IsOpen(h: Handle)
  {
    h.entry.Some? && h.entry.value.session.hasConnection && !h.entry.value.session.closed
  }

  /**
    `shutdown()`: nothing to do once detached or with no connection bound;
    otherwise the connection's shutdown, whose I/O error propagates.
   */
  function Shutdown(h: Handle): (r: Result<Handle>)
    ensures !h.Attached() ==> r == Ok(h)
    ensures h.Attached() && !h.entry.value.session.hasConnection ==> r == Ok(h)
    ensures r.Ok? ==> !IsOpen(r.value)
    ensures r.Ok? ==> r.value.manager == h.manager
    ensures r.Ok? ==> r.value.reusable == h.reusable && r.value.duration == h.duration
    ensures r.Ok? ==> r.value.entry.Some? == h.entry.Some?
    ensures r.Ok? && h.Attached() ==> r.value.entry.value.tracker == h.entry.value.tracker
    ensures r.Err? ==> IsOpen(h) || (h.Attached() && h.entry.value.session.hasConnection)
  {
    if h.entry.None? || !h.entry.value.session.hasConnection then
      Ok(h)
    else
      match ShutdownSession(h.entry.value.session)
      case Ok(s) => Ok(WithSession(h, s))
      case Err(x) => Err(x)
  }

  /**
    `close()`: the graceful counterpart of `Shutdown`, with the same null
    handling. The transport's graceful close is not distinguished from its
    shutdown: both follow the session's shutdown behaviour.
   */
  function Close(h: Handle): (r: Result<Handle>)
    ensures !h.Attached() ==> r == Ok(h)
    ensures h.Attached() && !h.entry.value.session.hasConnection ==> r == Ok(h)
    ensures r.Ok? ==> !IsOpen(r.value) && r.value.reusable == h.reusable
    ensures r.Ok? ==> r.value.manager == h.manager
    ensures r.Ok? ==> r.value.entry.Some? == h.entry.Some?
  {
    Shutdown(h)
  }

  /**
    The handle's open state and the entry's closed state agree: an open
    handle's entry is not closed, and once the bound connection has been
    shut down the entry reports itself closed.
   */
  lemma ShutdownClosesEntry(h: Handle)
    ensures IsOpen(h) <==> EnsureConnection(h).Ok? && !EnsureConnection(h).value.closed
    ensures IsOpen(h) ==> !IsClosed(h.entry.value)
    ensures IsBound(h) ==> (Shutdown(h).Ok? <==> h.entry.value.session.onShutdown == ShutsDown)
    ensures IsBound(h) && Shutdown(h).Ok? ==> IsClosed(Shutdown(h).value.entry.value)
  {
  }

  /** `setSocketTimeout(timeout)` on the bound connection. */
  function SetSocketTimeout(h: Handle, timeout: int): (r: Result<Handle>)
    ensures r.Err? <==> EnsureConnection(h).Err?
    ensures r.Err? ==> r.error == EnsureConnection(h).error
    ensures r.Ok? ==> r.value.entry.Some? && r.value.entry.value.session.socketTimeout == timeout
    ensures r.Ok? ==> IsOpen(r.value) == IsOpen(h) && r.value.reusable == h.reusable
    ensures r.Ok? ==> r.value.entry.value.tracker == h.entry.value.tracker
    ensures r.Ok? ==> r.value == WithSession(h, h.entry.value.session.(socketTimeout := timeout))
  {
    var s :- EnsureConnection(h);
    Ok(WithSession(h, s.(socketTimeout := timeout)))
  }

  function GetSocketTimeout(h: Handle): (r: Result<int>)
    ensures r.Err? <==> !IsBound(h)
    ensures r.Err? ==> r.error == EnsureConnection(h).error
    ensures r.Ok? ==> r.value == h.entry.value.session.socketTimeout
  {
    var s :- EnsureConnection(h);
    Ok(s.socketTimeout)
  }

  /** `isSecure()`: whether the bound connection runs over an SSL session. */
  function IsSecure(h: Handle): (r: Result<bool>)
    ensures r.Err? <==> !IsBound(h)
    ensures r.Err? ==> r.error == EnsureConnection(h).error
    ensures r.Ok? ==> (r.value <==> h.entry.value.session.ssl)
  {
    var s :- EnsureConnection(h);
    Ok(s.ssl)
  }

  predicate IsBound(h: Handle) {
    h.entry.Some? && h.entry.value.session.hasConnection
  }

  /** `getRoute()`: the tracker's effective route, not the planned one. */
  function GetRoute(h: Handle): (r: Result<Option<Route>>)
    ensures r.Err? <==> !h.Attached()
    ensures r.Err? ==> r.error == ConnectionShutdown
    ensures r.Ok? ==> r.value == EffectiveRoute(h.entry.value)
    ensures r.Ok? ==> (r.value.Some? <==> h.entry.value.tracker.connected)
  {
    var e :- EnsurePoolEntry(h);
    Ok(EffectiveRoute(e))
  }

  function GetState(h: Handle): (r: Result<Option<Token>>)
    ensures r.Err? <==> !h.Attached()
    ensures r.Err? ==> r.error == ConnectionShutdown
    ensures r.Ok? ==> r.value == h.entry.value.state
  {
    var e :- EnsurePoolEntry(h);
    Ok(e.state)
  }

  function SetState(h: Handle, state: Option<Token>): (r: Result<Handle>)
    ensures r.Err? <==> !h.Attached()
    ensures r.Err? ==> r.error == ConnectionShutdown
    ensures r.Ok? ==> GetState(r.value) == Ok(state)
    ensures r.Ok? ==> r.value == h.(entry := Some(h.entry.value.(state := state)))
  {
    var e :- EnsurePoolEntry(h);
    Ok(h.(entry := Some(e.(state := state))))
  }

  function MarkReusable(h: Handle): (h': Handle)
    ensures IsMarkedReusable(h')
    ensures h' == h.(reusable := true)
  {
    h.(reusable := true)
  }

  function UnmarkReusable(h: Handle): (h': Handle)
    ensures !IsMarkedReusable(h')
    ensures h' == h.(reusable := false)
  {
    h.(reusable := false)
  }

  predicate IsMarkedReusable(h: Handle) {
    h.reusable
  }

  /**
    `setIdleDuration(duration, unit)`: a positive duration is kept in
    milliseconds, anything else becomes -1.
   */
  function SetIdleDuration(h: Handle, duration: int, unit: TimeUnit): (h': Handle)
    requires IsLong(duration)
    ensures h' == h.(duration := h'.duration)
    ensures duration <= 0 ==> h'.duration == -1
    ensures duration > 0 ==> 0 <= h'.duration <= LongMax
    ensures duration > 0 && unit == Milliseconds ==> h'.duration == duration
    ensures duration > 0 && unit == Seconds && duration <= LongMax / 1000 ==> h'.duration == duration * 1000
  {
    if duration > 0 then h.(duration := ToMillis(duration, unit)) else h.(duration := -1)
  }

  /**
    `open(route, context)`. Fails when detached or already connected. On a
    direct route the scheme's layering strategy, if any, is applied to the
    session first and the tracker records a target connection that is
    secure exactly when the resulting session is SSL; on a proxied route it
    records a plain connection to the first proxy. Either way the new
    connection is bound to the session.
   */
  function Open(h: Handle, route: Route, scheme: Scheme): (r: Result<Handle>)
    ensures !h.Attached() ==> r == Err(ConnectionShutdown)
    ensures h.Attached() && h.entry.value.tracker.connected ==> r == Err(IllegalState("Connection already open"))
    ensures r.Ok? <==> h.Attached() && !h.entry.value.tracker.connected
    ensures r.Ok? ==> r.value.reusable == h.reusable && r.value.duration == h.duration && r.value.manager == h.manager
    ensures r.Ok? ==> r.value.Attached()
    ensures r.Ok? ==> (IsOpen(r.value) <==> !h.entry.value.session.closed)
    ensures r.Ok? ==> var e, e' := h.entry.value, r.value.entry.value;
      && e' == e.(session := e'.session, tracker := e'.tracker)
      && e'.session == e.session.(hasConnection := true, ssl := e'.session.ssl)
      && e'.session.hasConnection && e'.tracker.connected
      && e'.tracker.target == e.tracker.target
      && e'.tracker.tunnelled == e.tracker.tunnelled && e'.tracker.layered == e.tracker.layered
      && (route.proxies == [] ==> e'.tracker.proxies == e.tracker.proxies && e'.tracker.secure == e'.session.ssl)
      && (route.proxies == [] && scheme.strategy.Some? ==> e'.session.ssl == scheme.strategy.value.yieldsSsl)
      && (route.proxies == [] && scheme.strategy.None? ==> e'.session.ssl == e.session.ssl)
      && (route.proxies != [] ==> e'.tracker.proxies == [route.proxies[0]] && !e'.tracker.secure)
      && (route.proxies != [] ==> e'.session.ssl == e.session.ssl)
  {
    var e :- EnsurePoolEntry(h);
    if e.tracker.connected then Err(IllegalState("Connection already open"))
    else
      var s := e.session;
      var s1 := if route.ProxyHost().None? && scheme.strategy.Some?
                then s.(ssl := scheme.strategy.value.yieldsSsl)
                else s;
      var s2 := s1.(hasConnection := true);
      var t := if route.ProxyHost().None?
               then Routes.ConnectTarget(e.tracker, s2.ssl)
               else Routes.ConnectProxy(e.tracker, route.ProxyHost().value, false);
      Ok(h.(entry := Some(e.(session := s2, tracker := t))))
  }

  /** `tunnelProxy(next)`: requires an open connection; extends the proxy chain, insecure. */
  function TunnelProxy(h: Handle, next: Host): (r: Result<Handle>)
    ensures !h.Attached() ==> r == Err(ConnectionShutdown)
    ensures h.Attached() && !h.entry.value.tracker.connected ==> r == Err(IllegalState("Connection not open"))
    ensures r.Ok? <==> h.Attached() && h.entry.value.tracker.connected
    ensures r.Ok? ==> r.value.Attached()
    ensures r.Ok? ==> var t, t' := h.entry.value.tracker, r.value.entry.value.tracker;
      && r.value == WithTracker(h, t')
      && t' == t.(proxies := t.proxies + [next], secure := false)
  {
    var e :- EnsurePoolEntry(h);
    if !e.tracker.connected then Err(IllegalState("Connection not open"))
    else Ok(WithTracker(h, Routes.TunnelProxy(e.tracker, next, false)))
  }

  /** `tunnelTarget()`: requires an open, not yet tunnelled connection. */
  function TunnelTarget(h: Handle): (r: Result<Handle>)
    ensures !h.Attached() ==> r == Err(ConnectionShutdown)
    ensures h.Attached() && !h.entry.value.tracker.connected ==> r == Err(IllegalState("Connection not open"))
    ensures h.Attached() && h.entry.value.tracker.connected && h.entry.value.tracker.tunnelled ==>
      r == Err(IllegalState("Connection is already tunnelled"))
    ensures r.Ok? <==> h.Attached() && h.entry.value.tracker.connected && !h.entry.value.tracker.tunnelled
    ensures r.Ok? ==> r.value.Attached()
    ensures r.Ok? ==> var t, t' := h.entry.value.tracker, r.value.entry.value.tracker;
      && r.value == WithTracker(h, t')
      && t' == t.(tunnelled := true, secure := false)
  {
    var e :- EnsurePoolEntry(h);
    if !e.tracker.connected then Err(IllegalState("Connection not open"))
    else if e.tracker.tunnelled then Err(IllegalState("Connection is already tunnelled"))
    else Ok(WithTracker(h, Routes.TunnelTarget(e.tracker, false)))
  }

  /**
    `layerProtocol(context)`: checks, in this order, that the connection is
    open, tunnelled, not yet layered, and that the target's scheme can layer;
    then upgrades the bound connection to the layered SSL session and records
    the layer with the strategy's secure flag. A strategy whose session is not
    an `SSLIOSession` fails the downcast; a missing connection the dereference.
   */
  function LayerProtocol(h: Handle, scheme: Scheme): (r: Result<Handle>)
    ensures !h.Attached() ==> r == Err(ConnectionShutdown)
    ensures h.Attached() ==> var t := h.entry.value.tracker;
      && (!t.connected ==> r == Err(IllegalState("Connection not open")))
      && (t.connected && !t.tunnelled ==> r == Err(IllegalState("Protocol layering without a tunnel not supported")))
      && (t.connected && t.tunnelled && t.layered ==> r == Err(IllegalState("Multiple protocol layering not supported")))
      && (t.connected && t.tunnelled && !t.layered && scheme.strategy.None? ==> r.Err? && r.error.IllegalState?)
    ensures r.Ok? <==>
      && h.Attached() && h.entry.value.tracker.connected && h.entry.value.tracker.tunnelled
      && !h.entry.value.tracker.layered && scheme.strategy.Some? && scheme.strategy.value.yieldsSsl
      && h.entry.value.session.hasConnection
    ensures r.Ok? ==> r.value.Attached()
    ensures r.Ok? ==> var e, e' := h.entry.value, r.value.entry.value;
      && r.value == h.(entry := Some(e'))
      && e' == e.(session := e.session.(ssl := true), tracker := e.tracker.(layered := true, secure := scheme.strategy.value.secure))
  {
    var e :- EnsurePoolEntry(h);
    var t := e.tracker;
    if !t.connected then Err(IllegalState("Connection not open"))
    else if !t.tunnelled then Err(IllegalState("Protocol layering without a tunnel not supported"))
    else if t.layered then Err(IllegalState("Multiple protocol layering not supported"))
    else if scheme.strategy.None? then
      Err(IllegalState(scheme.name + " scheme does not provider support for protocol layering"))
    else if !scheme.strategy.value.yieldsSsl then Err(ClassCast)
    else if !e.session.hasConnection then Err(NullPointer)
    else
      var s := e.session.(ssl := true);
      Ok(h.(entry := Some(e.(session := s, tracker := Routes.LayerProtocol(t, scheme.strategy.value.secure)))))
  }
}

=== FILE: pool_entry.dfy ===
/**
  `HttpPoolEntry`: one pooled transport session, the route it was created
  for, and the tracker recording how far along that route it has been
  established. The expiry bookkeeping is the inherited behaviour of the
  library's `PoolEntry` base class.
 */
module PoolEntries {
  import opened Common
  import opened Routes

  /** How the transport behaves when asked to shut down (an oracle). */
  datatype ShutdownBehaviour = ShutsDown | ThrowsIo | ThrowsUnchecked

  /**
    The reactor's I/O session. `hasConnection` says whether the client
    connection object has been bound to it (the `CONNECTION_KEY` attribute);
    `ssl` whether it is an `SSLIOSession`; `closed` is its closed state, which
    the bound connection also reports as not open.
   */
  datatype Session = Session(
    closed: bool,
    hasConnection: bool,
    ssl: bool,
    socketTimeout: int,
    onShutdown: ShutdownBehaviour)

  /** The caller's opaque affinity token (`getState`/`setState`). */
  datatype Token = Token(value: string)

  datatype Entry = Entry(
    id: string,
    route: Route,
    session: Session,
    tracker: Tracker,
    state: Option<Token>,
    deadline: int,
    expiry: int)

  /**
    The constructor: the tracker starts on exactly the route the entry is
    built for; a positive time-to-live bounds the entry's life from `now`,
    otherwise it lives indefinitely. The deadline `now + ttl` is `long`
    arithmetic, as in `UpdateExpiry`: a sum past `Long.MAX_VALUE` wraps and
    the entry is born expired.
   */
  function NewEntry(id: string, route: Route, session: Session, timeToLive: int, unit: TimeUnit, now: int): (e: Entry)
    requires IsLong(timeToLive)
    ensures e.tracker == NewTracker(route)
    ensures PlannedRoute(e) == route && EffectiveRoute(e).None?
    ensures e.id == id && e.session == session && e.state.None?
    ensures timeToLive > 0 && IsLong(now + ToMillis(timeToLive, unit)) ==> e.deadline == now + ToMillis(timeToLive, unit)
    ensures timeToLive > 0 && IsLong(now) && now + ToMillis(timeToLive, unit) > LongMax ==>
      e.deadline < 0 && forall t :: t >= 0 ==> IsExpired(e, t)
    ensures timeToLive <= 0 ==> e.deadline == LongMax
    ensures e.expiry == e.deadline
    ensures forall t :: IsExpired(e, t) <==> t >= e.deadline
  {
    var deadline := if timeToLive > 0 then WrapLong(now + ToMillis(timeToLive, unit)) else LongMax;
    Entry(id, route, session, NewTracker(route), None, deadline, deadline)
  }

  /** `getPlannedRoute`: the route given at construction. */
  function PlannedRoute(e: Entry): Route {
    e.route
  }

  /** `getEffectiveRoute`: whatever the tracker has established so far. */
  function EffectiveRoute(e: Entry): (r: Option<Route>)
    ensures r.None? <==> !e.tracker.connected
    ensures r.Some? ==> r.value.target == e.tracker.target && r.value.proxies == e.tracker.proxies
  {
    ToRoute(e.tracker)
  }

  /** `isExpired(now)`: the base class's deadline check; logging adds nothing. */
  predicate IsExpired(e: Entry, now: int) {
    now >= e.expiry
  }

  /** `isClosed`: the session's own closed state, nothing else. */
  predicate IsClosed(e: Entry) {
    e.session.closed
  }

  /**
    `ClientAsyncConnection.shutdown()` on the connection bound to the
    session: on success the session is closed; otherwise it throws and the
    session is left as it was.
   */
  function ShutdownSession(s: Session): (r: Result<Session>)
    requires s.hasConnection
    ensures r.Ok? <==> s.onShutdown == ShutsDown
    ensures r.Ok? ==> r.value == s.(closed := true)
    ensures s.onShutdown == ThrowsIo ==> r == Err(IoError)
    ensures s.onShutdown == ThrowsUnchecked ==> r == Err(Unchecked)
  {
    match s.onShutdown
    case ShutsDown => Ok(s.(closed := true))
    case ThrowsIo => Err(IoError)
    case ThrowsUnchecked => Err(Unchecked)
  }

  /**
    `close()`: shuts the bound connection down and swallows any I/O error.
    With no connection bound the dereference fails; an unchecked exception
    from the transport is not caught.
   */
  function Close(e: Entry): (r: Result<Entry>)
    ensures r != Err(IoError)
    ensures r.Ok? ==> r.value.tracker == e.tracker && r.value.route == e.route
    ensures r.Ok? ==> (IsClosed(r.value) <==> IsClosed(e) || e.session.onShutdown == ShutsDown)
    ensures e.session.hasConnection && e.session.onShutdown == ThrowsIo ==> r == Ok(e)
    ensures r.Err? <==> !e.session.hasConnection || e.session.onShutdown == ThrowsUnchecked
  {
    if !e.session.hasConnection then Err(NullPointer)
    else
      match ShutdownSession(e.session)
      case Ok(s) => Ok(e.(session := s))
      case Err(IoError) => Ok(e)
      case Err(x) => Err(x)
  }

  /**
    `updateExpiry(keepalive, MILLISECONDS)` at time `now`: a positive
    keep-alive makes the entry expire that long after `now`, anything else
    means "no idle limit"; either way the time-to-live deadline still wins.
    The sum `now + keepalive` is Java `long` arithmetic, so a keep-alive that
    reaches past `Long.MAX_VALUE` wraps to a time long gone.
   */
  function UpdateExpiry(e: Entry, keepalive: int, now: int): (e': Entry)
    ensures e' == e.(expiry := e'.expiry)
    ensures e'.expiry <= e.deadline
    ensures forall t :: t >= e.deadline ==> IsExpired(e', t)
    ensures keepalive > 0 && IsLong(now + keepalive) ==>
      forall t :: t < now + keepalive && t < e.deadline ==> !IsExpired(e', t)
    ensures keepalive > 0 && IsLong(now + keepalive) && now + keepalive <= e.deadline ==>
      IsExpired(e', now + keepalive)
    ensures keepalive > 0 && IsLong(now) && IsLong(keepalive) && now + keepalive > LongMax ==>
      e'.expiry < 0 && forall t :: t >= 0 ==> IsExpired(e', t)
    ensures keepalive <= 0 && e.deadline <= LongMax ==> forall t :: IsExpired(e', t) <==> t >= e.deadline
  {
    var newExpiry := if keepalive > 0 then WrapLong(now + keepalive) else LongMax;
    e.(expiry := if newExpiry < e.deadline then newExpiry else e.deadline)
  }
}

=== FILE: routes.dfy ===
/**
  Routes and the route tracker. `HttpRoute` and `RouteTracker` come from an
  external library; they are modelled here as plain records, and the tracker
  operations only RECORD a step. The checks that decide whether a step is
  legal are the connection handle's (module ManagedConnections), as they are
  in the handle's source.
 */
module Routes {
  import opened Common

  datatype Host = Host(name: string, port: int)

  /** A planned or effective route: target, proxy chain, and the transport flags. */
  datatype Route = Route(
    target: Host,
    proxies: seq<Host>,
    secure: bool,
    tunnelled: bool,
    layered: bool)
  {
    /** `getProxyHost`: the first proxy of the chain, if there is one. */
    function ProxyHost(): (p: Option<Host>)
      ensures p.None? <==> proxies == []
      ensures p.Some? ==> p.value == proxies[0]
    {
      if proxies == [] then None else Some(proxies[0])
    }
  }

  /** The progress of establishing one pooled connection along its route. */
  datatype Tracker = Tracker(
    target: Host,
    connected: bool,
    proxies: seq<Host>,
    tunnelled: bool,
    layered: bool,
    secure: bool)

  /** `new RouteTracker(route)`: nothing established yet, aimed at the route's target. */
  function NewTracker(route: Route): Tracker
  {
    Tracker(route.target, false, [], false, false, false)
  }

  /** `toRoute()`: the route actually traversed, or `null` before the first connect. */
  function ToRoute(t: Tracker): (r: Option<Route>)
    ensures r.None? <==> !t.connected
    ensures r.Some? ==> r.value.target == t.target && r.value.proxies == t.proxies
    ensures r.Some? ==> r.value.tunnelled == t.tunnelled && r.value.layered == t.layered
    ensures r.Some? ==> r.value.secure == t.secure
  {
    if t.connected then Some(Route(t.target, t.proxies, t.secure, t.tunnelled, t.layered)) else None
  }

  function ConnectTarget(t: Tracker, secure: bool): Tracker {
    t.(connected := true, secure := secure)
  }

  function ConnectProxy(t: Tracker, proxy: Host, secure: bool): Tracker {
    t.(connected := true, proxies := [proxy], secure := secure)
  }

  function TunnelProxy(t: Tracker, proxy: Host, secure: bool): Tracker {
    t.(proxies := t.proxies + [proxy], secure := secure)
  }

  function TunnelTarget(t: Tracker, secure: bool): Tracker {
    t.(tunnelled := true, secure := secure)
  }

  function LayerProtocol(t: Tracker, secure: bool): Tracker {
    t.(layered := true, secure := secure)
  }

  /**
    The order the handle enforces: nothing is tunnelled through, tunnelled
    or layered before the connection is open, and layering only ever
    happens on top of a tunnel.
   */
  predicate WellOrdered(t: Tracker) {
    && (t.proxies != [] ==> t.connected)
    && (t.tunnelled ==> t.connected)
    && (t.layered ==> t.tunnelled)
  }
}
